=== FILE: README.md ===
# Dictionary web: translation synchronisation and LLM response cache

A Dafny model of the logic at the heart of the Erudify Chinese–English–Pinyin
dictionary page. Two pieces are modelled.

* **Three-field synchronisation** (`src/app.rs`). The page keeps one `Source`:
  the field the user last typed into, with the typed text. Each field displays
  the typed text when it is authoritative, and its derivation otherwise. The
  Chinese derivation is the typed Chinese, or the en→zh / py→zh translation of
  the typed English / Pinyin. English and Pinyin are derived from the *Chinese
  value* through zh→en / zh→py, unless they are themselves authoritative. A
  failed translation becomes "". Module `Sync` models, as
  `Settle(source, translator)`, the values reached when all three fetchers
  run on a given source. The translator is an oracle
  `(Direction, string) -> Option<string>`. `Settle` returns the three field
  values and the two translation calls that produced them.
* **Request construction and the cache-aside lookup** (`src/llm.rs`).
  * Module `Chat` models the message list `query_openai` builds and its fixed
    parameters. It also has an inverse `Split`, which shows that the layout is
    unambiguous.
  * Module `Directions` models the four direction tables: system prompt and
    few-shot history.
  * Module `LowerHex` models the `{:x}` rendering of the 64-bit hash. Its
    inverse `ParseHex` comes with round-trip lemmas in both directions.
  * Module `Cache` models `cached_query_openai` as a function over an abstract
    store (`map<string, Entry>`). It returns the result, the new store and the
    number of upstream calls. `Session` is a method that runs many queries
    against one shared store, each query with its own environment.

Oracles, in `Cache.Env`:
* JSON serialisation, `Request -> Option<string>`.
* The hasher, `string -> u64`.
* The upstream chat-completion call, `Request -> Option<Reply>`.
* Boolean flags for:
  * the extraction of the worker environment;
  * the `LLM_CACHE` binding and the `OPENAI_API_KEY` secret;
  * whether the store read fails;
  * whether the store write fails.

`Cache.QueryOpenai` models `query_openai` and `Cache.Translate` models the four
direction functions.

Behaviours of the code worth knowing:
* Store errors fail the call; they are not treated as misses (src/llm.rs:117,
  src/llm.rs:145-148).
* A failed translation shows "" (src/app.rs:116-117, src/app.rs:128,
  src/app.rs:139).
* A missing `LLM_CACHE` binding or `OPENAI_API_KEY` secret is an `expect` panic
  (src/llm.rs:104, src/llm.rs:126-129); it is modelled as the error exit
  `Fault.Panicked`.
* Stale results are not modelled; only the values the fetchers compute for a
  given source are.

## Model

| member | source | states |
|---|---|---|
| Sync.Source.GetChinese | src/app.rs:84-89 | `get_chinese` is `Some` exactly for a Chinese source, and then holds its text |
| Sync.Source.GetEnglish | src/app.rs:91-96 | `get_english` is `Some` exactly for an English source, and then holds its text |
| Sync.Source.GetPinyin | src/app.rs:98-103 | `get_pinyin` is `Some` exactly for a Pinyin source, and then holds its text |
| Sync.Unpack | src/app.rs:84-103 | a field's projection is defined exactly when the source is that field's variant, and then it is the typed text |
| Sync.ExactlyOneProjection | src/app.rs:84-103 | for every source exactly one of `get_chinese`/`get_english`/`get_pinyin` is `Some`, the one matching the variant, holding its text |
| Sync.Pack | src/app.rs:161-179 | packing typed text through a field yields a source whose authoritative field is that field and whose text is the typed text |
| Sync.PackUnpack | src/app.rs:161-179 | pack then unpack through the same field gives back the typed text; every other field's unpack is `None` |
| Sync.UnpackPack | src/app.rs:76-103 | unpacking the authoritative field and packing again rebuilds the source |
| Sync.Edit | src/app.rs:24-26 | an input event in a field makes that field authoritative with exactly the typed text |
| Sync.EditForgetsPrevious | src/app.rs:24-26 | the source after an edit does not depend on the source before it |
| Sync.Shown | src/app.rs:18 | a field displays the typed text when authoritative, otherwise the derived value, otherwise "" |
| Sync.EditShowsTyped | src/app.rs:18-26 | right after an edit the edited field displays exactly what was typed, whatever its derivation currently holds |
| Sync.WordsInput | src/app.rs:145-150 | the word list reads the typed Chinese when Chinese is authoritative, otherwise the Chinese derivation or "" |
| Sync.WordsMatchChineseField | src/app.rs:145-150 | the word list's input is always exactly what the Chinese field displays |
| Sync.DeriveChinese | src/app.rs:111-121 | Chinese is the typed text with no call when Chinese is authoritative; otherwise one call from the authoritative language to Chinese on the typed text, whose failure gives "" |
| Sync.DeriveFromChinese | src/app.rs:123-143 | English/Pinyin is the typed text with no call when authoritative; otherwise one call from Chinese to that language on the Chinese value, whose failure gives "" |
| Sync.Settle | src/app.rs:111-143 | the authoritative field keeps the typed text; exactly two calls are made, towards two different languages, none towards the authoritative one; each derived field holds its call's outcome; English and Pinyin are translated only from the Chinese value |
| Sync.Routing | src/app.rs:111-143 | per variant: Chinese source calls zh→en and zh→py on the text; English source calls en→zh then zh→py on its result; Pinyin source calls py→zh then zh→en on its result |
| Sync.SettledDisplay | src/app.rs:18 | once settled, each field displays its settled value and the word list reads the settled Chinese |
| Sync.FailureIsolated | src/app.rs:123-143 | changing (e.g. failing) one of the two directions out of Chinese changes no field except the one it targets |
| LowerHex.Render | src/llm.rs:112 | `{:x}` output is non-empty lower-case hex with no leading zero, and starts with '0' exactly for zero |
| LowerHex.ParseRender | src/llm.rs:112 | parsing the rendering of a number gives the number back |
| LowerHex.RenderParse | src/llm.rs:112 | rendering the value of any canonical hex string gives the string back |
| LowerHex.RenderInjective | src/llm.rs:112 | distinct hash values render to distinct keys |
| LowerHex.RenderU64Length | src/llm.rs:110-112 | a rendered 64-bit hash has between 1 and 16 characters |
| Chat.HistoryMessages | src/llm.rs:15-18 | the history becomes 2·n messages, pair i as a user message at 2i and an assistant message at 2i+1 |
| Chat.Messages | src/llm.rs:13-19 | the message list has length 2 + 2·n: system first, then the history pairs in order, then the prompt as the last user message |
| Chat.BuildMessages | src/llm.rs:13-19 | the push loop of the source produces that same layout |
| Chat.MakeRequest | src/llm.rs:21-27 | every request carries max_tokens 128, temperature 0.0 and model "openai/gpt-4o-mini", and its messages decode back to the triple |
| Chat.SplitMessages | src/llm.rs:13-19 | the (system, history, prompt) triple can be read back from its message list |
| Chat.MessagesSplit | src/llm.rs:13-19 | every message list of that shape is the layout of the triple read back from it |
| Chat.MakeRequestInjective | src/llm.rs:13-27 | two requests are equal exactly when their triples are |
| Directions.DirectionRequest | src/llm.rs:33-90 | a direction sends ten messages: its system prompt first, its four-pair history, and the caller's text unchanged as the final user message |
| Directions.DirectionsViaChinese | src/llm.rs:32-90 | each of the four directions joins two different languages, one of them Chinese, and is the direction `Between` them |
| Directions.SystemPrompt | src/llm.rs:35-80 | the four system prompts, each character for character as written in its direction function; their lengths are 89, 90, 95 and 96 |
| Directions.Examples | src/llm.rs:36-86 | the three example tables (Chinese, English, Pinyin), as written in the source, each of four sentences aligned by index, the third being "" |
| Directions.FewShot | src/llm.rs:36-86 | every direction's history is four pairs, pair i being example sentence i in the source language then example sentence i in the target language, as the literals in the source are |
| Directions.FewShotShape | src/llm.rs:36-86 | every few-shot history has four pairs, the third being ("", "") |
| Directions.FewShotReverse | src/llm.rs:36-86 | the en→zh history is the zh→en one with each pair swapped, and the py→zh one is the zh→py one swapped (and conversely) |
| Directions.SystemPromptsDistinct | src/llm.rs:33-90 | the four system prompts differ |
| Directions.DirectionRequestInjective | src/llm.rs:33-90 | two direction requests are equal exactly when direction and text are |
| Cache.Key | src/llm.rs:106-113 | a key exists exactly when the request serialises, and is then a canonical lower-case hex string of 1 to 16 characters whose value is the hash of the request's JSON |
| Cache.FirstContent | src/llm.rs:137-141 | a reply without choices yields nothing; otherwise the first choice's content, or "" when it has none |
| Cache.CachedQuery | src/llm.rs:92-153 | at most one upstream call; stored entries never replaced; failures write nothing; a success leaves its value under its key; a hit returns the stored value with no call and no write, and needs no API secret; a miss past the read and the secret makes exactly one upstream call; when that call and the write succeed, the first choice's content is written with a 86400 s TTL and returned; only upstream, empty-choice and write failures come with a call; a failed extraction fails with `ExtractFailed`, a missing `LLM_CACHE` binding panics, a request that does not serialise fails with `SerializeFailed` before the store is read, and a miss with no `OPENAI_API_KEY` panics, each with no call and no write; a success without a call is a hit |
| Cache.QueryOpenai | src/llm.rs:5-30 | the request carries max_tokens 128, temperature 0.0 and model "openai/gpt-4o-mini" and decodes back to the triple; at most one upstream call; a success is stored under the request's key; a success after an upstream call returns that reply's first content |
| Cache.Translate | src/llm.rs:32-90 | the request starts with the direction's system prompt and ends with the caller's text as the user message; at most one upstream call; a success is stored under the request's key; a success after an upstream call returns that reply's first content |
| Cache.SecondCallHits | src/llm.rs:117-123 | after a successful call, the same request on the resulting store returns the same string with no upstream call and no write |
| Cache.TranslateAgainHits | src/llm.rs:33-123 | translating the same text in the same direction again is answered from the cache |
| Cache.ReadErrorPropagates | src/llm.rs:117 | a failed store read fails the call with no upstream call, even if the key is stored |
| Cache.WriteErrorPropagates | src/llm.rs:145-148 | a failed store write after a successful upstream call fails the call and stores nothing |
| Cache.ReplyShapes | src/llm.rs:137-145 | an empty choice list is an error with nothing written; a choice without content caches and returns "" |
| Cache.Session | src/llm.rs:117-152 | over many queries on one store, each with its own faults: every success is what the final store holds under its key; stored entries never change; every new key is the key of one of the queries, and holds, with the 86400 s TTL, the first content of that query's own upstream reply; when no query meets a fault every query succeeds and the number of upstream calls equals the number of new keys, at most the number of distinct keys |

## Left out

- The debounce (`signal_debounced`, 1000 ms) and the reactive scheduling of the three resources. This includes the English and Pinyin resources reading the undebounced source. Only the values the fetchers compute for the final source are modelled, because these are timing and concurrency in the framework.
- The initial source and initial resource values (src/app.rs:108, 120, 131, 142). They are placeholders shown before the first derivation settles.
- Loading indicators, all view markup and styling, and `tailwind.config.js`. These are presentation.
- Word segmentation and dictionary lookups in `WordList`, and the dictionary downloads in `src/dict_context.rs`. These are an external library and network I/O. Only the text the word list reads is modelled (`Sync.WordsInput`).
- `src/lib.rs`: worker bootstrap, routing and server-function registration.
- The internals of the hasher, JSON serialisation, the HTTP client and API base, and the secret lookup. They are oracles in `Cache.Env`.
- KV expiry mechanics and the `cache_ttl` read hint. The store is the set of live entries; the TTL written is recorded in each entry.
- Timing and logging calls.
- Concurrent misses on the same key. Calls are modelled one after another.
- Sync.Settle: is the state reached when both the English and the Pinyin fetcher re-run on the settled source. The framework re-runs them only when the Chinese value they are keyed on changes (src/app.rs:124, src/app.rs:135), and that caching belongs to the framework, which is not part of this model. For example, after English("Hi") settles with Chinese value z, typing z into the Chinese field leaves the Chinese value unchanged. No zh→en call is made and English keeps showing "Hi", whereas `Settle(Chinese(z))` predicts zh→en(z).
- Cache.Key: makes no claim that distinct requests get distinct keys. The hash is an oracle and may collide; only the rendering (`LowerHex.RenderInjective`) is injective.
- Cache.Session: counts upstream calls exactly only when no query of the run meets a fault (`AllHealthy`). With faults it only guarantees consistency of results with the store. The serialiser and hasher are the same for every query; every other fault is per query.
- The upstream call is modelled as a function of the request, so two misses on the same request would get the same reply. The properties stated do not depend on this.

=== FILE: cache.dfy ===
/**
 * The cache-aside protocol of `cached_query_openai`, over an abstract
 * key/value store. The request's JSON serialisation, the 64-bit hasher, the
 * upstream model and the store's faults are oracles carried by `Env`; the
 * protocol reports how many upstream calls it made.
 */
module Cache {
  import opened Wrappers
  import opened LowerHex
  import opened Chat
  import opened Directions

  /** 24 hours in seconds, the expiry written with every entry. */
  const CacheTtl: nat := 24 * 60 * 60

  datatype Entry = Entry(value: string, ttlSeconds: nat)

  /** The key/value namespace as last read: keys present and not yet expired. */
  type Store = map<string, Entry>

  /** One choice of a chat-completion reply; its content may be absent. */
  datatype Choice = Choice(content: Option<string>)

  datatype Reply = Reply(choices: seq<Choice>)

  /** Every way the call can end without a translation. */
  datatype Fault =
    | ExtractFailed                 // the worker environment could not be extracted
    | Panicked(message: string)     // an `expect` on a missing binding or secret
    | SerializeFailed               // the request could not be serialised to JSON
    | ReadFailed                    // the store read errored
    | UpstreamFailed                // the chat-completion call errored
    | EmptyChoices                  // the reply held no choice
    | WriteFailed                   // the store write errored
  {
    /** The faults raised after the upstream call was made. */
    predicate AfterUpstream() {
      UpstreamFailed? || EmptyChoices? || WriteFailed?
    }
  }

  /** Everything the protocol consults besides the store and the request. */
  datatype Env = Env(
    extracted: bool,                  // the `Extension<Arc<Env>>` extraction succeeds
    kvBound: bool,                    // the `LLM_CACHE` binding exists
    hasSecret: bool,                  // the `OPENAI_API_KEY` secret exists
    serialize: Request -> Option<string>,
    hash: string -> u64,
    readOk: bool,
    upstream: Request -> Option<Reply>,
    writeOk: bool)

  /** What one call leaves behind: its result, the store after it, and the number of upstream calls it made. */
  datatype Outcome = Outcome(result: Result<string, Fault>, store: Store, calls: nat)

  /** The cache key: the lower-case hex rendering of the hash of the request's JSON. */
  function Key(env: Env, request: Request): (k: Option<string>)
    ensures k.Some? <==> env.serialize(request).Some?
    ensures k.Some? ==> Canonical(k.value) && 1 <= |k.value| <= 16
    // The key spells out the 64-bit hash of the request's JSON.
    ensures k.Some? ==> ParseHex(k.value) == env.hash(env.serialize(request).value) as nat
  {
    match env.serialize(request)
    case None => None
    case Some(json) =>
      var h := env.hash(json);
      RenderU64Length(h);
      ParseRender(h as nat);
      Some(Render(h as nat))
  }

  /** The text a reply contributes: the first choice's content, "" when it has none. */
  function FirstContent(reply: Reply): (r: Option<string>)
    ensures r.Some? <==> |reply.choices| > 0
    ensures r.Some? && reply.choices[0].content.Some? ==> r.value == reply.choices[0].content.value
    ensures r.Some? && reply.choices[0].content.None? ==> r.value == ""
  {
    if |reply.choices| == 0 then None else Some(reply.choices[0].content.GetOr(""))
  }

  /** `cached_query_openai`: read the store; on a hit return; on a miss call upstream once, write, return. */
  function CachedQuery(env: Env, store: Store, request: Request): (o: Outcome)
    ensures o.calls <= 1
    // Existing entries are never replaced, and at most the request's own key is added.
    ensures forall k :: k in store ==> k in o.store && o.store[k] == store[k]
    ensures forall k :: k in o.store && k !in store ==> Key(env, request) == Some(k)
    // A failed call writes nothing.
    ensures o.result.Failure? ==> o.store == store
    // A successful call leaves the returned value under the request's key.
    ensures o.result.Success? ==>
              Key(env, request).Some? && Key(env, request).value in o.store
              && o.store[Key(env, request).value].value == o.result.value
    // A hit: the stored value, no upstream call, the store unchanged.
    ensures env.extracted && env.kvBound && env.readOk && Key(env, request).Some?
            && Key(env, request).value in store ==>
              o == Outcome(Success(store[Key(env, request).value].value), store, 0)
    // A miss that succeeds: one upstream call, whose content is written for a day and returned.
    ensures o.result.Success? && o.calls == 1 ==>
              Key(env, request).value !in store
              && env.upstream(request).Some?
              && FirstContent(env.upstream(request).value) == Some(o.result.value)
              && o.store == store[Key(env, request).value := Entry(o.result.value, CacheTtl)]
    // A miss that reaches the upstream makes exactly one call.
    ensures env.extracted && env.kvBound && env.readOk && env.hasSecret && Key(env, request).Some?
            && Key(env, request).value !in store ==>
              o.calls == 1
    // A miss whose upstream call and write succeed returns the first choice's content, written for a day.
    ensures env.extracted && env.kvBound && env.readOk && env.hasSecret && env.writeOk
            && Key(env, request).Some? && Key(env, request).value !in store
            && env.upstream(request).Some? && FirstContent(env.upstream(request).value).Some? ==>
              var c := FirstContent(env.upstream(request).value).value;
              o == Outcome(Success(c), store[Key(env, request).value := Entry(c, CacheTtl)], 1)
    // Only the faults raised after the upstream call come with a call; every other failure makes none.
    ensures o.result.Failure? ==> (o.calls == 1 <==> o.result.error.AfterUpstream())
    // The exits taken before the store is consulted, and the missing secret on a miss.
    ensures !env.extracted ==> o == Outcome(Failure(ExtractFailed), store, 0)
    ensures env.extracted && !env.kvBound ==> o == Outcome(Failure(Panicked("LLM_CACHE must be set")), store, 0)
    ensures env.extracted && env.kvBound && Key(env, request).None? ==> o == Outcome(Failure(SerializeFailed), store, 0)
    ensures env.extracted && env.kvBound && env.readOk && Key(env, request).Some?
            && Key(env, request).value !in store && !env.hasSecret ==>
              o == Outcome(Failure(Panicked("OPENAI_API_KEY must be set")), store, 0)
    // A success without an upstream call is a hit.
    ensures o.result.Success? && o.calls == 0 ==>
              Key(env, request).value in store
              && o == Outcome(Success(store[Key(env, request).value].value), store, 0)
  {
    if !env.extracted then Outcome(Failure(ExtractFailed), store, 0)
    else if !env.kvBound then Outcome(Failure(Panicked("LLM_CACHE must be set")), store, 0)
    else match Key(env, request)
      case None => Outcome(Failure(SerializeFailed), store, 0)
      case Some(key) =>
        if !env.readOk then Outcome(Failure(ReadFailed), store, 0)
        else if key in store then Outcome(Success(store[key].value), store, 0)
        else if !env.hasSecret then Outcome(Failure(Panicked("OPENAI_API_KEY must be set")), store, 0)
        else match env.upstream(request)
          case None => Outcome(Failure(UpstreamFailed), store, 1)
          case Some(reply) =>
            match FirstContent(reply)
            case None => Outcome(Failure(EmptyChoices), store, 1)
            case Some(content) =>
              if !env.writeOk then Outcome(Failure(WriteFailed), store, 1)
              else Outcome(Success(content), store[key := Entry(content, CacheTtl)], 1)
  }

  /**
   * `query_openai`: the request built from (system, history, prompt) under the
   * fixed parameters, looked up through the cache.
   */
  function QueryOpenai(env: Env, store: Store, system: string, history: seq<Exchange>, prompt: string): (o: Outcome)
    ensures var request := MakeRequest(system, history, prompt);
            && o.calls <= 1
            && (o.result.Success? ==>
                  Key(env, request).Some? && Key(env, request).value in o.store
                  && o.store[Key(env, request).value].value == o.result.value)
            && (o.result.Success? && o.calls == 1 ==>
                  env.upstream(request).Some? && FirstContent(env.upstream(request).value) == Some(o.result.value))
            && request.maxTokens == 128 && request.temperature == 0.0 && request.model == "openai/gpt-4o-mini"
            && Split(request.messages) == Some((system, history, prompt))
  {
    CachedQuery(env, store, MakeRequest(system, history, prompt))
  }

  /**
   * One of the four direction functions, e.g. `chinese_to_english(text)`:
   * `query_openai` with the direction's prompt and examples and `text` as the prompt.
   */
  function Translate(env: Env, store: Store, d: Direction, text: string): (o: Outcome)
    ensures var request := DirectionRequest(d, text);
            && o.calls <= 1
            && request.messages[0] == System(SystemPrompt(d))
            && request.messages[9] == User(text)
            && (o.result.Success? ==>
                  Key(env, request).Some? && Key(env, request).value in o.store
                  && o.store[Key(env, request).value].value == o.result.value)
            && (o.result.Success? && o.calls == 1 ==>
                  env.upstream(request).Some? && FirstContent(env.upstream(request).value) == Some(o.result.value))
  {
    CachedQuery(env, store, DirectionRequest(d, text))
  }

  /** Everything succeeds: the environment is complete and neither the store nor the upstream fails. */
  ghost predicate Healthy(env: Env) {
    && env.extracted && env.kvBound && env.hasSecret && env.readOk && env.writeOk
    && (forall r :: env.serialize(r).Some?)
    && (forall r :: env.upstream(r).Some? && |env.upstream(r).value.choices| > 0)
  }

  /**
   * Two equal requests on the same store: the second is answered from the
   * cache with the same string and makes no upstream call, provided its own
   * read does not fail.
   */
  lemma SecondCallHits(env1: Env, env2: Env, store: Store, request: Request)
    requires env1.serialize == env2.serialize && env1.hash == env2.hash
    requires CachedQuery(env1, store, request).result.Success?
    requires env2.extracted && env2.kvBound && env2.readOk
    ensures var first := CachedQuery(env1, store, request);
            var second := CachedQuery(env2, first.store, request);
            second == Outcome(first.result, first.store, 0)
  {
  }

  /** The same for the direction functions: translating a text again costs no upstream call. */
  lemma TranslateAgainHits(env: Env, store: Store, d: Direction, text: string)
    requires Translate(env, store, d, text).result.Success?
    ensures var first := Translate(env, store, d, text);
            Translate(env, first.store, d, text) == Outcome(first.result, first.store, 0)
  {
    SecondCallHits(env, env, store, DirectionRequest(d, text));
  }

  /** A failed store read fails the call before any upstream request, whether or not the key is stored. */
  lemma ReadErrorPropagates(env: Env, store: Store, request: Request)
    requires env.extracted && env.kvBound && env.serialize(request).Some? && !env.readOk
    ensures CachedQuery(env, store, request) == Outcome(Failure(ReadFailed), store, 0)
  {
  }

  /** A failed write after a successful upstream call fails the call, and nothing is stored. */
  lemma WriteErrorPropagates(env: Env, store: Store, request: Request)
    requires env.extracted && env.kvBound && env.hasSecret && env.readOk && !env.writeOk
    requires Key(env, request).Some? && Key(env, request).value !in store
    requires env.upstream(request).Some? && |env.upstream(request).value.choices| > 0
    ensures CachedQuery(env, store, request) == Outcome(Failure(WriteFailed), store, 1)
  {
  }

  /** An empty choice list is an error and nothing is written; an absent content is cached as "". */
  lemma ReplyShapes(env: Env, store: Store, request: Request)
    requires env.extracted && env.kvBound && env.hasSecret && env.readOk && env.writeOk
    requires Key(env, request).Some? && Key(env, request).value !in store
    requires env.upstream(request).Some?
    ensures var o := CachedQuery(env, store, request);
            var choices := env.upstream(request).value.choices;
            && (|choices| == 0 ==> o == Outcome(Failure(EmptyChoices), store, 1))
            && (|choices| > 0 && choices[0].content.None? ==>
                  o == Outcome(Success(""), store[Key(env, request).value := Entry("", CacheTtl)], 1))
  {
  }

  /** The distinct cache keys of a sequence of requests. */
  function KeysOf(env: Env, requests: seq<Request>): (ks: set<string>)
    ensures forall i :: 0 <= i < |requests| && Key(env, requests[i]).Some? ==> Key(env, requests[i]).value in ks
    ensures forall k :: k in ks ==> exists i :: 0 <= i < |requests| && Key(env, requests[i]) == Some(k)
  {
    if |requests| == 0 then {}
    else
      var rest := KeysOf(env, requests[1..]);
      var here := match Key(env, requests[0]) case None => {} case Some(k) => {k};
      assert forall k :: k in rest ==> exists i :: 0 <= i < |requests| && Key(env, requests[i]) == Some(k) by {
        forall k | k in rest
          ensures exists i :: 0 <= i < |requests| && Key(env, requests[i]) == Some(k)
        {
          var j :| 0 <= j < |requests[1..]| && Key(env, requests[1..][j]) == Some(k);
          assert Key(env, requests[j + 1]) == Some(k);
        }
      }
      here + rest
  }

  /** Every entry of `store` is still in `final`, unchanged. */
  ghost predicate Keeps(store: Store, final: Store) {
    forall k :: k in store ==> k in final && final[k] == store[k]
  }

  /** Each of the first `n` successful results is what `final` holds under its request's key. */
  ghost predicate Answers(env: Env, requests: seq<Request>, results: seq<Result<string, Fault>>, final: Store, n: nat)
    requires n <= |requests| && n <= |results|
  {
    forall i :: 0 <= i < n && results[i].Success? ==>
      Key(env, requests[i]).Some? && Key(env, requests[i]).value in final
      && final[Key(env, requests[i]).value].value == results[i].value
  }

  /** Every key `final` has beyond `store` belongs to one of the first `n` requests. */
  ghost predicate AddedByFirst(env: Env, requests: seq<Request>, store: Store, final: Store, n: nat)
    requires n <= |requests|
  {
    forall k :: k in final && k !in store ==> exists i :: 0 <= i < n && Key(env, requests[i]) == Some(k)
  }

  /** `e` computes the same cache keys as `env`: same serialiser, same hasher. */
  ghost predicate SameKeys(env: Env, e: Env) {
    e.serialize == env.serialize && e.hash == env.hash
  }

  /** One more query keeps every earlier answer in the store and records its own. */
  lemma AnswersStep(env: Env, e: Env, requests: seq<Request>, results: seq<Result<string, Fault>>, final: Store, n: nat)
    requires SameKeys(env, e)
    requires n < |requests| && |results| == n
    requires Answers(env, requests, results, final, n)
    ensures var o := CachedQuery(e, final, requests[n]);
            Answers(env, requests, results + [o.result], o.store, n + 1)
  {
  }

  /** One more query adds at most its own key. */
  lemma AddedStep(env: Env, e: Env, requests: seq<Request>, store: Store, final: Store, n: nat)
    requires SameKeys(env, e)
    requires n < |requests|
    requires AddedByFirst(env, requests, store, final, n)
    ensures AddedByFirst(env, requests, store, CachedQuery(e, final, requests[n]).store, n + 1)
  {
  }

  /** With nothing failing, a query succeeds and adds one new key exactly when it calls upstream. */
  lemma HealthyStep(env: Env, store: Store, final: Store, request: Request)
    requires Healthy(env) && store.Keys <= final.Keys
    ensures var o := CachedQuery(env, final, request);
            && o.result.Success?
            && |o.store.Keys - store.Keys| == |final.Keys - store.Keys| + o.calls
  {
  }

  /** Nothing fails on any call of the run. */
  ghost predicate AllHealthy(envs: seq<Env>) {
    forall i :: 0 <= i < |envs| ==> Healthy(envs[i])
  }

  /** The keys a whole run added all belong to its requests. */
  lemma AddedAreKeys(env: Env, requests: seq<Request>, store: Store, final: Store)
    requires AddedByFirst(env, requests, store, final, |requests|)
    ensures forall k :: k in final && k !in store ==> k in KeysOf(env, requests)
  {
    forall k | k in final && k !in store
      ensures k in KeysOf(env, requests)
    {
      var i :| 0 <= i < |requests| && Key(env, requests[i]) == Some(k);
    }
  }

  /**
   * A run of queries sharing one store, as successive translations do. Query
   * i sees its own environment `envs[i]`, so store, secret and upstream faults
   * may hit one query and spare the next; all of them serialise and hash as
   * `env` does. Every successful answer is what the final store holds under
   * its key, stored entries are never replaced, and when nothing fails there
   * is at most one upstream call per distinct key.
   */
  method Session(env: Env, envs: seq<Env>, store: Store, requests: seq<Request>)
    returns (results: seq<Result<string, Fault>>, final: Store, calls: nat)
    requires |envs| == |requests|
    requires forall i :: 0 <= i < |envs| ==> SameKeys(env, envs[i])
    ensures |results| == |requests|
    ensures forall k :: k in store ==> k in final && final[k] == store[k]
    ensures forall i :: 0 <= i < |requests| && results[i].Success? ==>
              Key(env, requests[i]).Some? && Key(env, requests[i]).value in final
              && final[Key(env, requests[i]).value].value == results[i].value
    ensures forall k :: k in final && k !in store ==> k in KeysOf(env, requests)
    // Every entry the run adds is the first content of the upstream reply to a query with that key.
    ensures FromUpstream(env, envs, requests, store, final, |requests|)
    ensures AllHealthy(envs) ==> forall i :: 0 <= i < |requests| ==> results[i].Success?
    ensures AllHealthy(envs) ==> calls == |final.Keys - store.Keys| <= |KeysOf(env, requests)|
  {
    results := [];
    final := store;
    calls := 0;
    for n := 0 to |requests|
      invariant |results| == n
      invariant Progress(env, envs, store, requests, results, final, calls)
      invariant FromUpstream(env, envs, requests, store, final, n)
    {
      var o := CachedQuery(envs[n], final, requests[n]);
      ProgressStep(env, envs, store, requests, results, final, calls);
      FromUpstreamStep(env, envs, requests, store, final, n);
      results := results + [o.result];
      final := o.store;
      calls := calls + o.calls;
    }
    AddedAreKeys(env, requests, store, final);
    if AllHealthy(envs) {
      SubsetCardinality(final.Keys - store.Keys, KeysOf(env, requests));
    }
  }

  /** Entry `k` of `final` holds the first content of the upstream reply to one of the first `n` queries, whose key is `k`, with the day-long expiry. */
  ghost predicate WrittenByQuery(env: Env, envs: seq<Env>, requests: seq<Request>, final: Store, k: string, n: nat)
    requires n <= |requests| == |envs| && k in final
  {
    exists j :: 0 <= j < n && Key(env, requests[j]) == Some(k)
      && envs[j].upstream(requests[j]).Some?
      && FirstContent(envs[j].upstream(requests[j]).value) == Some(final[k].value)
      && final[k].ttlSeconds == CacheTtl
  }

  /** Every entry `final` has beyond `store` was written by one of the first `n` queries, on a miss. */
  ghost predicate FromUpstream(env: Env, envs: seq<Env>, requests: seq<Request>, store: Store, final: Store, n: nat)
    requires n <= |requests| == |envs|
  {
    forall k :: k in final && k !in store ==> WrittenByQuery(env, envs, requests, final, k, n)
  }

  /** One more query keeps `FromUpstream`: old entries keep their witness, a new one is the query's own miss. */
  lemma FromUpstreamStep(env: Env, envs: seq<Env>, requests: seq<Request>, store: Store, final: Store, n: nat)
    requires n < |requests| == |envs|
    requires SameKeys(env, envs[n])
    requires FromUpstream(env, envs, requests, store, final, n)
    ensures FromUpstream(env, envs, requests, store, CachedQuery(envs[n], final, requests[n]).store, n + 1)
  {
    var o := CachedQuery(envs[n], final, requests[n]);
    forall k | k in o.store && k !in store
      ensures WrittenByQuery(env, envs, requests, o.store, k, n + 1)
    {
      if k in final {
        var j :| 0 <= j < n && Key(env, requests[j]) == Some(k)
          && envs[j].upstream(requests[j]).Some?
          && FirstContent(envs[j].upstream(requests[j]).value) == Some(final[k].value)
          && final[k].ttlSeconds == CacheTtl;
        assert o.store[k] == final[k];
      } else {
        assert Key(env, requests[n]) == Some(k);
        assert o.result.Success? && o.calls == 1;
      }
    }
  }

  /** What holds after the first |results| queries of a run. */
  ghost predicate Progress(env: Env, envs: seq<Env>, store: Store, requests: seq<Request>,
                           results: seq<Result<string, Fault>>, final: Store, calls: nat)
  {
    && |results| <= |requests| == |envs|
    && Keeps(store, final)
    && Answers(env, requests, results, final, |results|)
    && AddedByFirst(env, requests, store, final, |results|)
    && (AllHealthy(envs) ==> forall i :: 0 <= i < |results| ==> results[i].Success?)
    && (AllHealthy(envs) ==> calls == |final.Keys - store.Keys|)
  }

  /** One more query of the run keeps `Progress`. */
  lemma ProgressStep(env: Env, envs: seq<Env>, store: Store, requests: seq<Request>,
                     results: seq<Result<string, Fault>>, final: Store, calls: nat)
    requires Progress(env, envs, store, requests, results, final, calls)
    requires |results| < |requests|
    requires forall i :: 0 <= i < |envs| ==> SameKeys(env, envs[i])
    ensures var n := |results|;
            var o := CachedQuery(envs[n], final, requests[n]);
            Progress(env, envs, store, requests, results + [o.result], o.store, calls + o.calls)
  {
    var n := |results|;
    AnswersStep(env, envs[n], requests, results, final, n);
    AddedStep(env, envs[n], requests, store, final, n);
    if AllHealthy(envs) {
      assert Healthy(envs[n]);
      HealthyStep(envs[n], store, final, requests[n]);
    }
  }

  lemma SubsetCardinality<T>(a: set<T>, b: set<T>)
    requires a <= b
    ensures |a| <= |b|
  {
    assert b == a + (b - a);
  }
}

=== FILE: chat.dfy ===
/**
 * The chat-completion request that `query_openai` builds: a system message,
 * the few-shot history as alternating user/assistant messages, then the
 * prompt as a final user message, under fixed generation parameters.
 */
module Chat {
  import opened Wrappers

  /** Rust's `u16`, the type of `max_tokens`. */
  newtype u16 = x: int | 0 <= x < 0x1_0000

  datatype Message =
    | System(content: string)
    | User(content: string)
    | Assistant(content: string)

  /** One few-shot example: what the user said, and what the assistant answered. */
  type Exchange = (string, string)

  datatype Request = Request(messages: seq<Message>, maxTokens: u16, temperature: real, model: string)

  const MaxTokens: u16 := 128
  const Temperature: real := 0.0
  const ModelName: string := "openai/gpt-4o-mini"

  /** The history part of the message list. */
  function HistoryMessages(history: seq<Exchange>): (ms: seq<Message>)
    ensures |ms| == 2 * |history|
    ensures forall i :: 0 <= i < |history| ==>
              ms[2 * i] == User(history[i].0) && ms[2 * i + 1] == Assistant(history[i].1)
  {
    if |history| == 0 then []
    else [User(history[0].0), Assistant(history[0].1)] + HistoryMessages(history[1..])
  }

  /** The full message list for a (system, history, prompt) triple. */
  function Messages(system: string, history: seq<Exchange>, prompt: string): (ms: seq<Message>)
    ensures |ms| == 2 + 2 * |history|
    ensures ms[0] == System(system)
    ensures ms[|ms| - 1] == User(prompt)
    ensures forall i :: 0 <= i < |history| ==>
              ms[1 + 2 * i] == User(history[i].0) && ms[2 + 2 * i] == Assistant(history[i].1)
  {
    [System(system)] + HistoryMessages(history) + [User(prompt)]
  }

  /**
   * The message list assembled the way the source does it: start from the
   * system message, push a user and an assistant message per history pair,
   * then push the prompt.
   */
  method BuildMessages(system: string, history: seq<Exchange>, prompt: string) returns (ms: seq<Message>)
    ensures |ms| == 2 + 2 * |history|
    ensures ms[0] == System(system) && ms[|ms| - 1] == User(prompt)
    ensures forall i :: 0 <= i < |history| ==>
              ms[1 + 2 * i] == User(history[i].0) && ms[2 + 2 * i] == Assistant(history[i].1)
    ensures ms == Messages(system, history, prompt)
  {
    ms := [System(system)];
    for i := 0 to |history|
      invariant |ms| == 1 + 2 * i
      invariant ms[0] == System(system)
      invariant forall j :: 0 <= j < i ==>
                  ms[1 + 2 * j] == User(history[j].0) && ms[2 + 2 * j] == Assistant(history[j].1)
    {
      var (req, resp) := history[i];
      ms := ms + [User(req)];
      ms := ms + [Assistant(resp)];
    }
    var body := ms;
    ms := body + [User(prompt)];
    var expected := Messages(system, history, prompt);
    forall k | 0 <= k < |ms|
      ensures ms[k] == expected[k]
    {
      if k == |ms| - 1 {
        assert ms[k] == User(prompt);
        assert expected[|expected| - 1] == User(prompt);
      } else if k > 0 {
        var i := (k - 1) / 2;
        assert 0 <= i < |history|;
        assert ms[k] == body[k];
        if k % 2 == 1 {
          assert k == 1 + 2 * i;
          assert body[1 + 2 * i] == User(history[i].0);
          assert expected[1 + 2 * i] == User(history[i].0);
        } else {
          assert k == 2 + 2 * i;
          assert body[2 + 2 * i] == Assistant(history[i].1);
          assert expected[2 + 2 * i] == Assistant(history[i].1);
        }
      }
    }
  }

  /** The request `query_openai` hands to the cache: the message list under fixed parameters. */
  function MakeRequest(system: string, history: seq<Exchange>, prompt: string): (r: Request)
    ensures r.maxTokens == 128 && r.temperature == 0.0 && r.model == "openai/gpt-4o-mini"
    ensures Split(r.messages) == Some((system, history, prompt))
  {
    SplitMessages(system, history, prompt);
    Request(Messages(system, history, prompt), MaxTokens, Temperature, ModelName)
  }

  /** Reads the history back out of alternating user/assistant messages. */
  function SplitHistory(ms: seq<Message>): (r: Option<seq<Exchange>>)
    ensures r.Some? ==> |ms| == 2 * |r.value|
    decreases |ms|
  {
    if |ms| == 0 then Some([])
    else if |ms| >= 2 && ms[0].User? && ms[1].Assistant? then
      match SplitHistory(ms[2..])
      case None => None
      case Some(rest) => Some([(ms[0].content, ms[1].content)] + rest)
    else None
  }

  /** Reads (system, history, prompt) back out of a message list, or None if it is not of that shape. */
  function Split(ms: seq<Message>): (r: Option<(string, seq<Exchange>, string)>) {
    if |ms| >= 2 && ms[0].System? && ms[|ms| - 1].User? then
      match SplitHistory(ms[1..|ms| - 1])
      case None => None
      case Some(h) => Some((ms[0].content, h, ms[|ms| - 1].content))
    else None
  }

  lemma {:induction false} SplitHistoryMessages(history: seq<Exchange>)
    ensures SplitHistory(HistoryMessages(history)) == Some(history)
    decreases |history|
  {
    if |history| > 0 {
      var ms := HistoryMessages(history);
      SplitHistoryMessages(history[1..]);
      assert ms[2..] == HistoryMessages(history[1..]);
      assert [history[0]] + history[1..] == history;
    }
  }

  /** The layout is unambiguous: the triple can be read back from the message list. */
  lemma SplitMessages(system: string, history: seq<Exchange>, prompt: string)
    ensures Split(Messages(system, history, prompt)) == Some((system, history, prompt))
  {
    var ms := Messages(system, history, prompt);
    assert ms[1..|ms| - 1] == HistoryMessages(history);
    SplitHistoryMessages(history);
  }

  lemma {:induction false} HistoryMessagesSplit(ms: seq<Message>)
    requires SplitHistory(ms).Some?
    ensures HistoryMessages(SplitHistory(ms).value) == ms
    decreases |ms|
  {
    if |ms| > 0 {
      HistoryMessagesSplit(ms[2..]);
      var h := SplitHistory(ms).value;
      assert h[1..] == SplitHistory(ms[2..]).value;
      assert ms == [ms[0], ms[1]] + ms[2..];
    }
  }

  /** Every message list of the right shape is the layout of the triple read from it. */
  lemma MessagesSplit(ms: seq<Message>)
    requires Split(ms).Some?
    ensures var (system, history, prompt) := Split(ms).value; Messages(system, history, prompt) == ms
  {
    var middle := ms[1..|ms| - 1];
    var h := SplitHistory(middle).value;
    HistoryMessagesSplit(middle);
    Reassemble(ms, h);
  }

  lemma Reassemble(ms: seq<Message>, h: seq<Exchange>)
    requires |ms| >= 2 && ms[0].System? && ms[|ms| - 1].User?
    requires HistoryMessages(h) == ms[1..|ms| - 1]
    ensures Messages(ms[0].content, h, ms[|ms| - 1].content) == ms
  {
    assert ms == [ms[0]] + ms[1..|ms| - 1] + [ms[|ms| - 1]];
  }

  /** Requests are equal exactly when the triples they were built from are. */
  lemma MakeRequestInjective(s1: string, h1: seq<Exchange>, p1: string, s2: string, h2: seq<Exchange>, p2: string)
    ensures MakeRequest(s1, h1, p1) == MakeRequest(s2, h2, p2) <==> (s1, h1, p1) == (s2, h2, p2)
  {
  }
}

=== FILE: directions.dfy ===
/**
 * The four fixed translation directions. Each is pure configuration: a
 * system prompt and a four-pair few-shot history, with the caller's text
 * passed through unchanged as the final prompt.
 */
module Directions {
  import opened Wrappers
  import opened Chat

  /** The three languages the dictionary shows, one per field. */
  datatype Lang = Zh | En | Py

  datatype Direction = ZhToEn | EnToZh | ZhToPy | PyToZh {

    /** The language the direction translates from. */
    function From(): (lang: Lang) {
      match this
      case ZhToEn => Zh
      case EnToZh => En
      case ZhToPy => Zh
      case PyToZh => Py
    }

    /** The language the direction translates into. */
    function To(): (lang: Lang) {
      match this
      case ZhToEn => En
      case EnToZh => Zh
      case ZhToPy => Py
      case PyToZh => Zh
    }

    /** The direction going the other way. */
    function Reverse(): (d: Direction)
      ensures d.From() == To() && d.To() == From()
    {
      match this
      case ZhToEn => EnToZh
      case EnToZh => ZhToEn
      case ZhToPy => PyToZh
      case PyToZh => ZhToPy
    }
  }

  /** The direction from `a` to `b`, when one of the four directions goes from `a` to `b`. */
  function Between(a: Lang, b: Lang): (r: Option<Direction>)
    ensures r.Some? <==> a != b && (a == Zh || b == Zh)
    ensures r.Some? ==> r.value.From() == a && r.value.To() == b
  {
    match (a, b)
    case (Zh, En) => Some(ZhToEn)
    case (En, Zh) => Some(EnToZh)
    case (Zh, Py) => Some(ZhToPy)
    case (Py, Zh) => Some(PyToZh)
    case _ => None
  }

  /** Every direction joins two different languages, one of them Chinese, and is the one `Between` them. */
  lemma DirectionsViaChinese(d: Direction)
    ensures d.From() != d.To() && (d.From() == Zh || d.To() == Zh)
    ensures Between(d.From(), d.To()) == Some(d)
  {
  }

  const ZhToEnPrompt: string := "You are a Chinese to English translation system. You will respond only with translations."
  const EnToZhPrompt: string := "You are an English to Chinese translation system. You will respond only with translations."
  const ZhToPyPrompt: string := "You are a Chinese to Pinyin translation system. You will respond only with Pinyin translations."
  const PyToZhPrompt: string := "You are a Pinyin to Chinese translation system. You will respond only with Chinese translations."

  lemma ZhToEnPromptLength() ensures |ZhToEnPrompt| == 89 {}
  lemma EnToZhPromptLength() ensures |EnToZhPrompt| == 90 {}
  lemma ZhToPyPromptLength() ensures |ZhToPyPrompt| == 95 {}
  lemma PyToZhPromptLength() ensures |PyToZhPrompt| == 96 {}

  /**
   * The system prompt of each direction, character for character; the four
   * have different lengths, which is what tells them apart.
   */
  function SystemPrompt(d: Direction): (prompt: string)
    ensures |prompt| == PromptLength(d)
  {
    match d
    case ZhToEn => ZhToEnPromptLength(); ZhToEnPrompt
    case EnToZh => EnToZhPromptLength(); EnToZhPrompt
    case ZhToPy => ZhToPyPromptLength(); ZhToPyPrompt
    case PyToZh => PyToZhPromptLength(); PyToZhPrompt
  }

  const ChineseExamples: seq<string> := ["你需要哪本书？", "这只苹果有半公斤。", "", "她正在打电话。"]
  const EnglishExamples: seq<string> := ["Which book do you need?", "This apple weighs half a kilogram.", "", "She is making a phone call."]
  const PinyinExamples: seq<string> := ["Nǐ xūyào nǎ běn shū?", "Zhè zhī píngguǒ yǒu bàn gōngjīn.", "", "Tā zhèngzài dǎ diànhuà."]

  /** The example sentences in one language, aligned by index across the three languages. */
  function Examples(lang: Lang): (sentences: seq<string>)
    ensures |sentences| == 4 && sentences[2] == ""
  {
    match lang
    case Zh => ChineseExamples
    case En => EnglishExamples
    case Py => PinyinExamples
  }

  /**
   * The few-shot history of each direction: pair i asks for example sentence i
   * in the source language and answers it with sentence i in the target language.
   */
  function FewShot(d: Direction): (examples: seq<Exchange>)
    ensures |examples| == 4
    ensures forall i :: 0 <= i < 4 ==> examples[i] == (Examples(d.From())[i], Examples(d.To())[i])
  {
    match d
    case ZhToEn => [(ChineseExamples[0], EnglishExamples[0]), (ChineseExamples[1], EnglishExamples[1]),
                    ("", ""), (ChineseExamples[3], EnglishExamples[3])]
    case EnToZh => [(EnglishExamples[0], ChineseExamples[0]), (EnglishExamples[1], ChineseExamples[1]),
                    ("", ""), (EnglishExamples[3], ChineseExamples[3])]
    case ZhToPy => [(ChineseExamples[0], PinyinExamples[0]), (ChineseExamples[1], PinyinExamples[1]),
                    ("", ""), (ChineseExamples[3], PinyinExamples[3])]
    case PyToZh => [(PinyinExamples[0], ChineseExamples[0]), (PinyinExamples[1], ChineseExamples[1]),
                    ("", ""), (PinyinExamples[3], ChineseExamples[3])]
  }

  /** Each pair with its two sides exchanged. */
  function SwapPairs(h: seq<Exchange>): (r: seq<Exchange>)
    ensures |r| == |h|
    ensures forall i :: 0 <= i < |h| ==> r[i] == (h[i].1, h[i].0)
  {
    seq(|h|, i requires 0 <= i < |h| => (h[i].1, h[i].0))
  }

  /** The request a direction function sends for `text`. */
  function DirectionRequest(d: Direction, text: string): (r: Request)
    ensures |r.messages| == 10
    ensures r.messages[0] == System(SystemPrompt(d))
    ensures r.messages[9] == User(text)
    ensures Split(r.messages) == Some((SystemPrompt(d), FewShot(d), text))
  {
    FewShotShape(d);
    MakeRequest(SystemPrompt(d), FewShot(d), text)
  }

  /** Every history has four pairs, the third of them empty on both sides. */
  lemma FewShotShape(d: Direction)
    ensures |FewShot(d)| == 4
    ensures FewShot(d)[2] == ("", "")
  {
  }

  /** The reverse direction's examples are this direction's with each pair swapped. */
  lemma FewShotReverse(d: Direction)
    ensures FewShot(d.Reverse()) == SwapPairs(FewShot(d))
  {
  }

  /** The lengths of the four system prompts, which happen to differ. */
  function PromptLength(d: Direction): (length: nat) {
    match d
    case ZhToEn => 89
    case EnToZh => 90
    case ZhToPy => 95
    case PyToZh => 96
  }

  lemma PromptLengthInjective(d1: Direction, d2: Direction)
    requires d1 != d2
    ensures PromptLength(d1) != PromptLength(d2)
  {
  }

  /** The system prompts tell the four directions apart. */
  lemma SystemPromptsDistinct(d1: Direction, d2: Direction)
    ensures d1 != d2 ==> SystemPrompt(d1) != SystemPrompt(d2)
  {
    if d1 != d2 {
      PromptLengthInjective(d1, d2);
    }
  }

  /** Two direction requests coincide only for the same direction and the same text. */
  lemma DirectionRequestInjective(d1: Direction, t1: string, d2: Direction, t2: string)
    ensures DirectionRequest(d1, t1) == DirectionRequest(d2, t2) <==> d1 == d2 && t1 == t2
  {
    if DirectionRequest(d1, t1) == DirectionRequest(d2, t2) {
      SystemPromptsDistinct(d1, d2);
    }
  }
}

=== FILE: lowerhex.dfy ===
/**
 * Rendering of a 64-bit hash as `format!("{:x}", n)` does it: lower-case
 * hexadecimal digits, most significant first, no leading zeros, and "0" for zero.
 * `ParseHex` is the inverse used to show the rendering loses nothing.
 */
module LowerHex {

  /** Rust's `u64`. */
  newtype u64 = x: int | 0 <= x < 0x1_0000_0000_0000_0000

  /** One of `0`–`9`, `a`–`f`. */
  predicate IsHexDigit(c: char) {
    '0' <= c <= '9' || 'a' <= c <= 'f'
  }

  predicate IsHexString(s: string) {
    forall i :: 0 <= i < |s| ==> IsHexDigit(s[i])
  }

  /** What `{:x}` can produce: non-empty, lower-case hex, no leading zero unless the whole string is "0". */
  predicate Canonical(s: string) {
    && |s| >= 1
    && IsHexString(s)
    && (|s| > 1 ==> s[0] != '0')
  }

  function Digit(d: nat): (c: char)
    requires d < 16
    ensures IsHexDigit(c)
  {
    if d < 10 then ('0' as int + d) as char else ('a' as int + d - 10) as char
  }

  function DigitValue(c: char): (d: nat)
    requires IsHexDigit(c)
    ensures d < 16 && Digit(d) == c
  {
    if c <= '9' then c as int - '0' as int else c as int - 'a' as int + 10
  }

  lemma DigitRoundTrip(d: nat)
    requires d < 16
    ensures DigitValue(Digit(d)) == d
  {
  }

  /** `format!("{:x}", n)`. */
  function Render(n: nat): (s: string)
    ensures Canonical(s)
    ensures s[0] == '0' <==> n == 0
    decreases n
  {
    if n < 16 then [Digit(n)] else Render(n / 16) + [Digit(n % 16)]
  }

  /** The value a string of hex digits denotes, most significant digit first. */
  function ParseHex(s: string): (n: nat)
    requires IsHexString(s)
  {
    if |s| == 0 then 0 else ParseHex(s[..|s| - 1]) * 16 + DigitValue(s[|s| - 1])
  }

  function Pow16(k: nat): (p: nat)
    ensures p >= 1
  {
    if k == 0 then 1 else 16 * Pow16(k - 1)
  }

  /** Rendering then parsing gives back the number. */
  lemma {:induction false} ParseRender(n: nat)
    ensures ParseHex(Render(n)) == n
    decreases n
  {
    var s := Render(n);
    if n < 16 {
      DigitRoundTrip(n);
      assert s[..0] == [];
    } else {
      ParseRender(n / 16);
      assert s[..|s| - 1] == Render(n / 16);
      DigitRoundTrip(n % 16);
    }
  }

  /** A canonical string whose first digit is not '0' denotes a positive number. */
  lemma {:induction false} LeadingDigitPositive(s: string)
    requires |s| >= 1 && IsHexString(s) && s[0] != '0'
    ensures ParseHex(s) > 0
    decreases |s|
  {
    if |s| > 1 {
      LeadingDigitPositive(s[..|s| - 1]);
    } else {
      assert s[..0] == [];
    }
  }

  lemma DivMod16(a: nat, d: nat)
    requires d < 16
    ensures (a * 16 + d) / 16 == a && (a * 16 + d) % 16 == d
  {
  }

  /** Parsing then rendering gives back every string `{:x}` can produce. */
  lemma {:induction false} RenderParse(s: string)
    requires Canonical(s)
    ensures Render(ParseHex(s)) == s
    decreases |s|
  {
    var n := ParseHex(s);
    var last := s[|s| - 1];
    var d := DigitValue(last);
    if |s| == 1 {
      assert s[..|s| - 1] == [];
      assert ParseHex(s[..|s| - 1]) == 0;
      assert n == d;
    } else {
      var p := s[..|s| - 1];
      assert Canonical(p);
      LeadingDigitPositive(p);
      RenderParse(p);
      var a := ParseHex(p);
      assert n == a * 16 + d;
      DivMod16(a, d);
      assert n >= 16;
      assert Render(n) == Render(a) + [Digit(d)];
      assert s == p + [last];
    }
  }

  /** Rendering is injective: distinct numbers get distinct strings. */
  lemma RenderInjective(m: nat, n: nat)
    requires Render(m) == Render(n)
    ensures m == n
  {
    ParseRender(m);
    ParseRender(n);
  }

  /** A number below 16^k renders in at most k digits. */
  lemma {:induction false} RenderLength(n: nat, k: nat)
    requires k >= 1 && n < Pow16(k)
    ensures |Render(n)| <= k
    decreases k
  {
    if n >= 16 {
      assert k >= 2;
      RenderLength(n / 16, k - 1);
    }
  }

  /** A rendered `u64` is between 1 and 16 characters long. */
  lemma RenderU64Length(n: u64)
    ensures 1 <= |Render(n as nat)| <= 16
  {
    assert Pow16(4) == 0x1_0000;
    assert Pow16(8) == 0x1_0000_0000 by { assert Pow16(8) == 16 * 16 * 16 * 16 * Pow16(4); }
    assert Pow16(16) == 0x1_0000_0000_0000_0000 by {
      assert Pow16(16) == 16 * 16 * 16 * 16 * 16 * 16 * 16 * 16 * Pow16(8);
    }
    RenderLength(n as nat, 16);
  }
}

=== FILE: sync.dfy ===
/**
 * The three-field synchronisation rules of the dictionary page: which field
 * is authoritative, what each field displays, and how the settled values of
 * the other two are derived through the translation directions. Translation
 * is an oracle `(Direction, string) -> Option<string>`; None is a failed call.
 */
module Sync {
  import opened Wrappers
  import opened Directions

  /** The field the user last typed into, with what they typed. */
  datatype Source = Chinese(text: string) | English(text: string) | Pinyin(text: string) {

    /** The language of the authoritative field. */
    function Lang(): (lang: Lang) {
      match this
      case Chinese(_) => Zh
      case English(_) => En
      case Pinyin(_) => Py
    }

    function GetChinese(): (r: Option<string>)
      ensures r.Some? <==> Chinese?
      ensures r.Some? ==> r.value == text
    {
      match this
      case Chinese(t) => Some(t)
      case _ => None
    }

    function GetEnglish(): (r: Option<string>)
      ensures r.Some? <==> English?
      ensures r.Some? ==> r.value == text
    {
      match this
      case English(t) => Some(t)
      case _ => None
    }

    function GetPinyin(): (r: Option<string>)
      ensures r.Some? <==> Pinyin?
      ensures r.Some? ==> r.value == text
    {
      match this
      case Pinyin(t) => Some(t)
      case _ => None
    }
  }

  /** The `pack` constructor a field is wired to. */
  function Pack(field: Lang, typed: string): (s: Source)
    ensures s.Lang() == field && s.text == typed
  {
    match field
    case Zh => Chinese(typed)
    case En => English(typed)
    case Py => Pinyin(typed)
  }

  /** The `unpack` projection a field is wired to. */
  function Unpack(field: Lang, s: Source): (r: Option<string>)
    ensures r.Some? <==> field == s.Lang()
    ensures r.Some? ==> r.value == s.text
  {
    match field
    case Zh => s.GetChinese()
    case En => s.GetEnglish()
    case Py => s.GetPinyin()
  }

  /** Exactly one projection is defined, the one matching the variant. */
  lemma ExactlyOneProjection(s: Source)
    ensures s.Chinese? ==> s.GetChinese() == Some(s.text) && s.GetEnglish().None? && s.GetPinyin().None?
    ensures s.English? ==> s.GetEnglish() == Some(s.text) && s.GetChinese().None? && s.GetPinyin().None?
    ensures s.Pinyin? ==> s.GetPinyin() == Some(s.text) && s.GetChinese().None? && s.GetEnglish().None?
  {
  }

  /** Packing then unpacking through the same field gives back the typed text; other fields see nothing. */
  lemma PackUnpack(field: Lang, other: Lang, typed: string)
    ensures Unpack(field, Pack(field, typed)) == Some(typed)
    ensures other != field ==> Unpack(other, Pack(field, typed)).None?
  {
  }

  /** Unpacking then packing through the authoritative field gives back the source. */
  lemma UnpackPack(s: Source)
    ensures Pack(s.Lang(), Unpack(s.Lang(), s).value) == s
  {
  }

  /** The input handler of a field: the typed text replaces the whole source, whatever it was. */
  function Edit(previous: Source, field: Lang, typed: string): (next: Source)
    ensures next.Lang() == field && next.text == typed
  {
    Pack(field, typed)
  }

  /** Nothing of the previous source survives an edit. */
  lemma EditForgetsPrevious(p1: Source, p2: Source, field: Lang, typed: string)
    ensures Edit(p1, field, typed) == Edit(p2, field, typed)
  {
  }

  /**
   * What a field displays: the typed text when the field is authoritative,
   * otherwise the current value of its derivation, or "" when there is none.
   */
  function Shown(field: Lang, s: Source, derived: Option<string>): (r: string)
    ensures field == s.Lang() ==> r == s.text
    ensures field != s.Lang() && derived.Some? ==> r == derived.value
    ensures field != s.Lang() && derived.None? ==> r == ""
  {
    Unpack(field, s).GetOr(derived.GetOr(""))
  }

  /** Right after an edit the edited field shows exactly what was typed, whatever its derivation holds. */
  lemma EditShowsTyped(previous: Source, field: Lang, typed: string, derived: Option<string>)
    ensures Shown(field, Edit(previous, field, typed), derived) == typed
  {
  }

  /** The text that the word list segments: the typed Chinese if Chinese is authoritative, else the Chinese derivation. */
  function WordsInput(s: Source, chinese: Option<string>): (r: string)
    ensures s.Chinese? ==> r == s.text
    ensures !s.Chinese? ==> r == chinese.GetOr("")
  {
    s.GetChinese().GetOr(chinese.GetOr(""))
  }

  /** The word list always reads exactly what the Chinese field displays. */
  lemma WordsMatchChineseField(s: Source, chinese: Option<string>)
    ensures WordsInput(s, chinese) == Shown(Zh, s, chinese)
  {
  }

  /** The translation backend as the page sees it. */
  type Translator = (Direction, string) -> Option<string>

  /** One translation call: the direction and the text sent. */
  datatype Call = Call(direction: Direction, input: string)

  /** The settled values of the three derivations and the calls made to reach them, in causal order. */
  datatype Settled = Settled(chinese: string, english: string, pinyin: string, calls: seq<Call>) {
    function Value(field: Lang): (value: string) {
      match field
      case Zh => chinese
      case En => english
      case Py => pinyin
    }
  }

  /** A call's result as the page uses it: a failure becomes "". */
  function CallResult(tr: Translator, c: Call): (r: string) {
    tr(c.direction, c.input).GetOr("")
  }

  /** The Chinese derivation: the typed text, or the translation of the English or Pinyin source. */
  function DeriveChinese(s: Source, tr: Translator): (r: (string, seq<Call>))
    ensures s.Chinese? ==> r == (s.text, [])
    ensures !s.Chinese? ==>
              && |r.1| == 1 && r.1[0].direction.To() == Zh
              && r.1[0].direction.From() == s.Lang() && r.1[0].input == s.text
              && r.0 == CallResult(tr, r.1[0])
  {
    match s
    case Chinese(t) => (t, [])
    case English(t) => var c := Call(EnToZh, t); (CallResult(tr, c), [c])
    case Pinyin(t) => var c := Call(PyToZh, t); (CallResult(tr, c), [c])
  }

  /**
   * The English or Pinyin derivation: the typed text when that field is
   * authoritative, otherwise the translation of the Chinese value.
   */
  function DeriveFromChinese(field: Lang, s: Source, chinese: string, tr: Translator): (r: (string, seq<Call>))
    requires field != Zh
    ensures field == s.Lang() ==> r == (s.text, [])
    ensures field != s.Lang() ==>
              && |r.1| == 1 && r.1[0].direction.From() == Zh
              && r.1[0].direction.To() == field && r.1[0].input == chinese
              && r.0 == CallResult(tr, r.1[0])
  {
    if field == s.Lang() then (s.text, [])
    else var c := Call(Between(Zh, field).value, chinese); (CallResult(tr, c), [c])
  }

  /**
   * The field values and calls reached when all three fetchers run on the
   * given source: Chinese first, then English and Pinyin on its value.
   */
  function Settle(s: Source, tr: Translator): (v: Settled)
    // The authoritative field keeps exactly what was typed.
    ensures v.Value(s.Lang()) == s.text
    // Exactly two calls, one per non-authoritative field, none towards the authoritative language.
    ensures |v.calls| == 2 && v.calls[0].direction.To() != v.calls[1].direction.To()
    ensures forall c :: c in v.calls ==> c.direction.To() != s.Lang()
    // Each derived field holds the outcome of the call made for it.
    ensures forall c :: c in v.calls ==> v.Value(c.direction.To()) == CallResult(tr, c)
    // English and Pinyin are only ever derived from the Chinese value.
    ensures forall c :: c in v.calls && c.direction.To() != Zh ==>
              c.direction.From() == Zh && c.input == v.chinese
    // Chinese is only ever derived from the typed text.
    ensures forall c :: c in v.calls && c.direction.To() == Zh ==> c.direction.From() == s.Lang() && c.input == s.text
  {
    var (chinese, c1) := DeriveChinese(s, tr);
    var (english, c2) := DeriveFromChinese(En, s, chinese, tr);
    var (pinyin, c3) := DeriveFromChinese(Py, s, chinese, tr);
    Settled(chinese, english, pinyin, c1 + c2 + c3)
  }

  /** The routing, case by case. */
  lemma Routing(s: Source, tr: Translator)
    ensures s.Chinese? ==> Settle(s, tr) == Settled(s.text,
              tr(ZhToEn, s.text).GetOr(""), tr(ZhToPy, s.text).GetOr(""),
              [Call(ZhToEn, s.text), Call(ZhToPy, s.text)])
    ensures s.English? ==> var zh := tr(EnToZh, s.text).GetOr("");
              Settle(s, tr) == Settled(zh, s.text, tr(ZhToPy, zh).GetOr(""),
              [Call(EnToZh, s.text), Call(ZhToPy, zh)])
    ensures s.Pinyin? ==> var zh := tr(PyToZh, s.text).GetOr("");
              Settle(s, tr) == Settled(zh, tr(ZhToEn, zh).GetOr(""), s.text,
              [Call(PyToZh, s.text), Call(ZhToEn, zh)])
  {
  }

  /** Once settled, every field displays its settled value, and the word list reads the settled Chinese. */
  lemma SettledDisplay(s: Source, tr: Translator, field: Lang)
    ensures var v := Settle(s, tr); Shown(field, s, Some(v.Value(field))) == v.Value(field)
    ensures WordsInput(s, Some(Settle(s, tr).chinese)) == Settle(s, tr).chinese
  {
  }

  /**
   * A failure in one of the two directions out of Chinese does not disturb its
   * sibling: translators that agree on every direction but `d` settle to the
   * same value in every field except the one `d` targets.
   */
  lemma FailureIsolated(s: Source, tr1: Translator, tr2: Translator, d: Direction, field: Lang)
    requires forall e, t :: e != d ==> tr1(e, t) == tr2(e, t)
    requires d.From() == Zh && field != d.To()
    ensures Settle(s, tr1).Value(field) == Settle(s, tr2).Value(field)
  {
  }
}

=== FILE: wrappers.dfy ===
/** Rust's `Option` and `Result`, as the model uses them. */
module Wrappers {

  /** Rust's `Option<T>`. */
  datatype Option<+T> = None | Some(value: T) {

    /** `unwrap_or(default)`: the held value, or `default` when there is none. */
    function GetOr(default: T): (r: T)
      ensures Some? ==> r == value
      ensures None? ==> r == default
    {
      match this
      case Some(v) => v
      case None => default
    }
  }

  /** Rust's `Result<R, E>`. */
  datatype Result<+R, +E> = Success(value: R) | Failure(error: E)
}
